=== FILE: README.md ===
# Portfolio page logic, modelled in Dafny

This project models the client-side behaviour of a single-page portfolio site (`script.js`). It covers the parts of that script that hold real logic, not DOM wiring:

- **Theme.** The early dark-mode script, `applyTheme` and the settings switch. The theme persists in `localStorage`.
- **Navigation.** Single-section navigation (`showSection`) and the active navigation link.
- **Iframe viewer.** The in-page viewer: `openInIframe`, its close button, and the Escape key.
- **Parsers.** Three line-based parsers, one each for the *stories*, *posts* and *projects* sheets. Each is downloaded as comma-separated text.
- **Stories widget.**
  - The viewed-story list (`markViewed`).
  - The unviewed-first stable ordering of the strip (`renderStories`).
  - The full-screen story viewer with its five-second auto-advance interval: `openStory`, `closeStory`, `nextStory`, `prevStory` and the keyboard handler.
- **Posts widget.** The failure note, the placeholder, and the post cards with their click rule.
- **Projects widget.** The search filter, `displayProjects`, `showMsg`, and the completion of `fetchProjects`.

Modules, one per file:

| module | file | contents |
|---|---|---|
| `Js` | `js.dfy` | `undefined`-able strings (`Option`), truthiness, `x \|\| d` |
| `Text` | `text.dfy` | `split` with a one-character separator, ECMAScript `trim`, `toLowerCase` (ASCII letters), `includes`, decimal rendering |
| `Seqs` | `seqs.dfy` | `filter` and `map` on sequences; which indices `filter` keeps |
| `Records` | `records.dfy` | the three parsers and their exact specifications |
| `Storage` | `store.dfy` | the two `localStorage` keys the page uses |
| `Overlay` | `overlay.dfy` | the iframe viewer (a class) |
| `Stories` | `stories.dfy` | viewed list, ordering, and the story viewer (a class) |
| `Posts` | `posts.dfy` | the posts container and the post click |
| `Projects` | `projects.dfy` | search filter and the project grid (a class) |
| `Page` | `page.dfy` | theme (a class) and navigation (a class over arrays) |

State the script changes in place is modelled as classes: the viewer, the grid, the theme and the navigation. Their methods have `modifies` frames and state their whole new state. Pure `split`/`map`/`filter` chains are modelled as functions, with lemmas about them.

Two behaviours of the code that a reader might not expect, which the model keeps as written:

- **Projects parser and the header line.** The stories and posts parsers drop the sheet's header line with `slice(1)` (`script.js:129`, `script.js:212`). The projects parser (`script.js:259`) trims the whole text and splits it without `slice(1)`. So a header with a name and a link, such as `h1,h2,h3`, is itself a project: `"h1,h2,h3\nAlice,http://i,http://l\n,http://i2,http://l2"` yields two projects, `h1` and `Alice` (`Records.ParseProjectsKeepsFirstLine`).
- **The error note in the projects message.** On a failed download the error note is written into a hidden element, so it is never displayed (see Findings).

## Model

| member | source | states |
|---|---|---|
| Js.OrElse | script.js:134 | `x \|\| d`: the value when it is defined and non-empty, otherwise the default. A non-empty default never gives an empty result. |
| Text.Trim | script.js:131 | `trim`: the input minus a leading and a trailing run of ECMAScript white space. The result neither starts nor ends with white space. |
| Text.TrimEmptyIff | script.js:131-133 | A trimmed field is empty iff every character of the raw field is white space. |
| Text.TrimKeeps | script.js:260 | A string with no white space at either end is its own trim. |
| Text.TrimIdempotent | script.js:259-260 | Trimming twice is trimming once. |
| Text.Split | script.js:129-130 | `split` with one separator: at least one piece, and no piece contains the separator. |
| Text.JoinSplit | script.js:130 | Splitting loses nothing: joining the pieces with the separator rebuilds the input. |
| Text.SplitNone | script.js:129 | A text without the separator is a single piece. |
| Text.SplitAt | script.js:130 | The first separator ends the first piece; the remainder is split on its own. |
| Text.LowerChar | script.js:265 | A capital A–Z becomes the matching small letter; any other character is kept. The result is never an ASCII capital. |
| Text.ToLower | script.js:265 | `toLowerCase`: same length; each character is lower-cased. |
| Text.ToLowerIdempotent | script.js:265 | Lower-casing twice is lower-casing once. |
| Text.Contains | script.js:303 | `includes`: true iff the substring occurs at some index. The empty string occurs everywhere. |
| Text.Decimal | script.js:135 | The digits of `${i}`: only decimal digits, no leading zero. |
| Text.DecimalRoundTrip | script.js:135 | Reading the rendered digits back gives the number. |
| Text.DecimalInjective | script.js:135 | Distinct numbers render differently. |
| Seqs.Filter | script.js:137 | `filter`: never longer than its input; every element it returns passes the test. |
| Seqs.Map | script.js:212-218 | `map`: same length; element `i` is `f` of input element `i`. |
| Seqs.MapIndexed | script.js:129-136 | `map((l, i) => …)`: element `i` is built from input element `i` and its position. |
| Seqs.FilterSpec | script.js:137 | `filter` returns exactly the elements at the strictly increasing indices whose element passes, in order. |
| Seqs.FilterAll | script.js:303 | Filtering by a test every element passes changes nothing. |
| Seqs.FilterNone | script.js:137 | Filtering by a test no element passes gives the empty sequence. |
| Seqs.FilterAppend | script.js:137 | Filtering distributes over concatenation. |
| Seqs.FilterPartition | script.js:147 | Filtering by two complementary tests splits the multiset of elements in two. |
| Seqs.FilterSplitAt | script.js:147 | A sequence whose front passes one test and whose back passes the other is its two filtered groups, in that order. |
| Records.Cell | script.js:131-134 | `c[k]?.trim()`: defined iff the line has a column `k`, and then the trimmed column. The cell is truthy iff that column exists and has a character that is not white space. |
| Records.DataLines | script.js:129 | `d.split('\n').slice(1)`: every line but the first, one fewer than the lines of the text, none holding a line break. The header line followed by the data lines, joined with `\n`, is the text again. |
| Records.DataLinesHeaderOnly | script.js:129 | Text without a line break (the empty text included) has no data line after `slice(1)`. |
| Records.StoryId | script.js:135 | `story-${i}`: the prefix `story-` followed by decimal digits only (the digits of `i`). |
| Records.StoryFromLine | script.js:130-136 | Column 0 trimmed is the thumbnail. Columns 1 and 2, trimmed, are the image and the link, undefined when the line is shorter. The title is column 3 trimmed when that is truthy, otherwise `Untitled`, so it is never empty. The id is `story-i`. |
| Records.KeepStoryIff | script.js:130-137 | The filter `s => s.thumbUrl && s.imageUrl` keeps the story built from a line iff the line's first two columns each have a non-white character. |
| Records.StoryIdInjective | script.js:135 | `story-${i}` ids are equal iff their positions are equal. |
| Records.StoryRows | script.js:129-136 | Row `i` is built from data line `i` with position `i`. |
| Records.ParseStories | script.js:129-137 | Every parsed story has a non-empty thumbnail and a truthy image. |
| Records.ParseStoriesSpec | script.js:129-137 | The stories are exactly the data lines whose first two columns have a non-white character, in order. The `j`-th comes from line `ks[j]`, the `ks` strictly increase, and its id is `story-` plus that line's position before filtering. |
| Records.ParseStoriesTitled | script.js:134 | Every parsed story has a non-empty title: its own, or `Untitled`. |
| Records.StoryIdsDistinct | script.js:135-137 | No two parsed stories share an id. |
| Records.ParseStoriesHeaderOnly | script.js:129 | The empty text, or a header alone, yields no story. |
| Records.PostFromLine | script.js:213-218 | Column 0 trimmed is the image URL. The title is column 1 trimmed when truthy, otherwise `Untitled`; the link is column 2 trimmed when truthy, otherwise `#`. Title and link are never empty. |
| Records.KeepPostIff | script.js:213-219 | The filter `p => p.imageUrl` keeps the post built from a line iff the line's first column has a non-white character. |
| Records.PostRows | script.js:212-218 | Row `i` is the post built from data line `i`. |
| Records.ParsePosts | script.js:212-219 | Every parsed post has a non-empty image URL. |
| Records.ParsePostsSpec | script.js:212-219 | The posts are exactly the data lines whose first column has a non-white character, in order, at strictly increasing line indices. |
| Records.ParsePostsHeaderOnly | script.js:212 | The empty text, or a header alone, yields no post. |
| Records.PostOpensIff | script.js:213-234 | The click test `post.link && post.link !== '#'` holds iff the line's third column, trimmed, is neither empty nor `#`. An empty column gives the `#` default, so it does not open. |
| Records.ProjectLines | script.js:259 | `d.trim().split('\n')`: at least one line, none holding a line break. The header line is not dropped. |
| Records.ProjectLinesRebuild | script.js:259 | No line is lost: joining the lines with `\n` gives the trimmed text. |
| Records.ProjectFromLine | script.js:260-266 | Column 0 trimmed is the name, and the search key is the name lower-cased. The link is column 2 trimmed, undefined when the line is shorter. The icon is column 1 trimmed when truthy, otherwise `CFG.icon`, so it is never empty. |
| Records.ProjectRowsKept | script.js:260-267 | Row `i` is kept iff line `i` has a name and a link, each with a non-white character. |
| Records.ProjectRows | script.js:259-266 | Row `i` is the project built from line `i` of the trimmed text. |
| Records.ParseProjects | script.js:259-267 | Every parsed project has a non-empty name and a truthy link. |
| Records.ParseProjectsSpec | script.js:259-267 | The projects are exactly the lines, the first one included, whose first and third columns have a non-white character, in order, at strictly increasing line indices. |
| Records.KeepProjectIff | script.js:260-267 | The filter `p => p.name && p.link` keeps the project built from a line iff its first and third columns each have a non-white character. |
| Records.ParseProjectsKeepsFirstLine | script.js:259 | When the first line has a name and a link, it is the first project: no header is skipped. |
| Storage.Store.constructor | script.js:3 | The stored `theme` and `viewedStories` keys, as found at page load. |
| Overlay.Iframe.constructor | script.js:76-79 | The viewer elements as the page loads them: hidden, with no source, and scrolling unlocked. |
| Overlay.Iframe.OpenInIframe | script.js:81-86 | Opens on `url` and locks page scrolling. The heading is the title, or `Content` when the title is absent or empty. |
| Overlay.Iframe.Close | script.js:88-92 | Hides the viewer, clears its source and unlocks scrolling, from any state. |
| Overlay.Iframe.KeyDown | script.js:94-98 | Escape closes the viewer only when it is open. Any other key, or Escape while closed, changes nothing. |
| Stories.WithViewed | script.js:158-160 | The viewed list only grows, by at most one id, and contains the id afterwards. |
| Stories.WithViewedMembers | script.js:158-160 | Afterwards the list holds exactly the old ids and the new one. A list with no duplicate id keeps none; a duplicate already in the stored list is kept as it is. |
| Stories.WithViewedIdempotent | script.js:158-160 | Marking an id a second time changes nothing. |
| Stories.CompareSign | script.js:147 | The comparator `(includes(a.id) ? 1 : -1) - (includes(b.id) ? 1 : -1)` is negative iff `a` is unviewed and `b` viewed, positive iff `a` is viewed and `b` unviewed, and zero iff both are in the same group. |
| Stories.UnviewedFirst | script.js:147 | The ordering is sorted by the comparator: no viewed story precedes an unviewed one. |
| Stories.GroupsPartition | script.js:147 | The unviewed and viewed groups together hold each story as often as the input does. |
| Stories.UnviewedFirstPermutes | script.js:147 | The ordering is a permutation of the stories. |
| Stories.UnviewedFirstStable | script.js:147 | The ordering is stable: within each group the stories keep their relative order. |
| Stories.SortedSplits | script.js:147 | A sequence sorted by the comparator is its unviewed stories followed by its viewed ones. |
| Stories.StableSortIsUnviewedFirst | script.js:147 | Any stable sort by the comparator yields exactly `UnviewedFirst`. |
| Stories.UnviewedFirstShowable | script.js:147 | Ordering keeps every story showable. |
| Stories.ParsedStoriesShowable | script.js:129-137 | Every parsed story can be shown: it passed the parser's filter and has a non-empty title. |
| Stories.StoryViewer.constructor | script.js:122 | The viewed list is the stored one, or empty when none is stored. No story is loaded, the viewer is closed, and no interval is live. |
| Stories.StoryViewer.LoadCompleted | script.js:124-143 | A download fills the strip with its stories in unviewed-first order. A failure leaves the strip empty and shows the notice. The viewer invariant is kept. |
| Stories.StoryViewer.RenderStories | script.js:145-147 | The strip is re-ordered unviewed-first, and every story stays showable. |
| Stories.StoryViewer.Show | script.js:170-174 | The viewer shows the story's image and title. The learn-more button links to the story's link, or `#`. It is shown, with its click target set, iff the link is truthy. Without a link the previous click target stays. |
| Stories.StoryViewer.MarkViewed | script.js:158-164 | Appends an id not yet viewed. The store is written only when the list grows. |
| Stories.StoryViewer.ClearInterval | script.js:176 | The interval in `timer`, if any, is no longer live. |
| Stories.StoryViewer.SetInterval | script.js:177 | A new interval with a never-used handle becomes live and is held in `timer`. |
| Stories.StoryViewer.RestartInterval | script.js:176-177 | After the clear and set, exactly one interval is live, and it is fresh. |
| Stories.StoryViewer.OpenStory | script.js:166-178 | The viewer is open at `i` and shows story `i`; without a link the previous learn-more target stays. That story is marked viewed, and the store is written iff its id is new. Exactly one fresh interval is live. The strip and the notice are unchanged. |
| Stories.StoryViewer.CloseStory | script.js:180-183 | The viewer is closed and no interval is live. |
| Stories.StoryViewer.NextStory | script.js:185 | Before the last story: opens the next one, marks it viewed (writing the store iff its id is new), and restarts the countdown with one fresh interval. Without a link, the story keeps the previous learn-more target. At the last story, or with none, it closes with no interval live. The index, the viewed list, the store, the held `timer`, the next handle and everything displayed stay as they were. The strip and the notice never change. |
| Stories.StoryViewer.PrevStory | script.js:187 | After the first story: opens the previous one, marks it viewed (writing the store iff its id is new), and restarts the countdown with one fresh interval. Without a link, the story keeps the previous learn-more target. At the first story nothing changes. The strip and the notice never change. |
| Stories.StoryViewer.TimerFires | script.js:177 | The live interval's tick does what `nextStory` does. Before the last story, the next story is opened and marked viewed, the store is written iff its id is new, and one fresh interval is live. Without a link, the story keeps the previous learn-more target. At the last story the viewer closes with no interval live. The index, the viewed list, the store, the held `timer`, the next handle and everything displayed stay as they were. The strip and the notice never change. |
| Stories.StoryViewer.KeyDown | script.js:192-197 | Keys are ignored while the viewer is closed. ArrowRight does what `nextStory` does, and ArrowLeft what `prevStory` does, with the same marking, store write, fresh interval and kept learn-more target. Escape closes with no interval live. The index, the viewed list, the store, the held `timer`, the next handle and everything displayed stay as they were. Other keys change nothing, and the strip and the notice never change. |
| Stories.StoryViewer.ClickLearnMore | script.js:174 | Opens the current story's link in the iframe viewer, titled with the story's title, with page scrolling locked. |
| Posts.LoadPosts | script.js:207-228 | A failed download shows the failure note. A download with no post shows `No posts yet.`. Otherwise the cards are exactly the parsed posts. |
| Posts.HeaderOnlyShowsPlaceholder | script.js:228 | A header alone shows the placeholder. |
| Posts.ClickPost | script.js:233-235 | A click opens the viewer on the post's link, with scrolling locked, iff the link is real. Otherwise the viewer is untouched. |
| Posts.ParsedPostTitled | script.js:234 | A parsed post's title is non-empty, so the viewer is titled with it and never with `Content`. |
| Projects.MatchesQuery | script.js:303 | `p => p.search.includes(q)`: a project matches iff `q` occurs in its search key at some index; the empty query matches every project. |
| Projects.FilterProjects | script.js:303 | Search results never outnumber the projects, and each contains the lower-cased query. |
| Projects.FilterProjectsSpec | script.js:303 | The results are exactly the in-order projects whose search key contains the lower-cased query. |
| Projects.EmptyQueryShowsAll | script.js:303 | The empty query shows every project. |
| Projects.SearchIgnoresQueryCase | script.js:303 | Queries that differ only in ASCII case give the same results. |
| Projects.ParsedProjectMatches | script.js:303 | A parsed project matches iff its lower-cased name contains the lower-cased query. |
| Projects.FilterProjectsFrom | script.js:303 | Every result is one of the projects searched. |
| Projects.ProjectGrid.constructor | script.js:249-254 | No project is loaded, and the loading spinner is displayed. |
| Projects.ProjectGrid.ShowMsg | script.js:293-301 | The message is displayed iff `show`. It holds the text with its kind when the text is truthy, and the spinner otherwise. |
| Projects.ProjectGrid.DisplayProjects | script.js:277-291 | The grid holds exactly `p`. An empty `p` displays the information note `No projects match search.`; otherwise the message is hidden. |
| Projects.ProjectGrid.FetchCompleted | script.js:253-275 | As written. A download sets `allProjects` to its parse and displays it. With projects, the message is hidden and holds the spinner. A failure leaves the projects as they were and the message hidden. With none loaded, the hidden message holds the error note; otherwise `finally` puts back the spinner. |
| Projects.ProjectGrid.FetchCompletedIntended | script.js:269-274 | As intended: a failure with no project loaded displays the error note. With projects loaded, the message is hidden and holds the spinner. |
| Projects.ProjectGrid.Search | script.js:303 | The grid is the matching projects, in order. An empty result displays the information note and never the error note. Otherwise the message is hidden and holds the spinner. `allProjects` is unchanged. |
| Projects.ProjectGrid.ClickCard | script.js:288 | Opens the card's link in the iframe viewer, titled with the project's name, with page scrolling locked. |
| Projects.FailedFetchAsWritten | script.js:271 | After a failed first download, the error note sits in a hidden element. |
| Projects.FailedFetchIntended | script.js:271 | After a failed first download, the error note is displayed. |
| Page.EarlyDarkMode | script.js:2-7 | Dark mode at load iff a theme is stored and it is `dark`. |
| Page.Theme.constructor | script.js:33-34 | The early script's choice equals the one `applyTheme` makes at start-up. The stored theme, or `light`, is written back. |
| Page.Theme.ApplyTheme | script.js:15-24 | Dark mode and the switch are on iff the theme is `dark`. The theme is stored verbatim, and a reload would show the same theme. |
| Page.Theme.SwitchChanged | script.js:27-30 | The switch position decides the theme, which is applied and stored. The stored viewed-story list is untouched. |
| Page.CountTrue | script.js:58-61 | The number of active sections: how many times `true` occurs among the flags. |
| Page.OneSectionActive | script.js:58-61 | With distinct section ids, at most one section is active. Exactly one is active iff the target names a section. |
| Page.DropFirst | script.js:68 | `href.substring(1)`: the href without its first character. |
| Page.Navigation.constructor | script.js:55-56 | The sections and links as the markup has them. |
| Page.Navigation.ShowSection | script.js:58-61 | A section is active iff its id is the target. |
| Page.Navigation.ClickLink | script.js:65-72 | The section named by the link's href is shown, and exactly the clicked link is active. |

## Left out

- **Network and async.** `fetch`, the `r.ok` check, and `async`/`await` sequencing are not modelled. A download is a parameter: `Some(text)` or `None` for any failure, such as a network error or a non-OK status.
- **Timers.** `setInterval`/`clearInterval` are modelled as handles in a set of live intervals. Real time and the 5000 ms period are not modelled. The 300 ms search debounce and the 4 s contact-form reset are not modelled either: they are scheduling, not logic.
- **DOM.** `innerHTML` templates and element creation are not modelled. The story strip's `viewed` CSS class (script.js:150, 162) is not modelled, since the viewed list determines it.
- **Page effects.** `window.scrollTo` (script.js:62) and `console.error` are not modelled.
- **Contact form.** The `mailto` form (script.js:309-330) depends on `encodeURIComponent` and on browser navigation.
- **Nav menu.** The nav-expand menu toggling and its click propagation (script.js:41-52) are not modelled. The expand links (script.js:100-106) are only calls to `openInIframe`, which is modelled.
- **JSON.** Encoding and decoding `viewedStories` (script.js:122, 161) is not modelled. The store holds the decoded list. Malformed JSON, which throws in `JSON.parse`, is not modelled.
- **Text encoding.** Strings are sequences of Unicode scalar values, not UTF-16 code units. `split(',')`, `trim` and `includes` agree on both as long as no surrogate pair is split.
- Text.ToLower: maps only the ASCII letters A–Z. `toLowerCase` also lower-cases other letters, such as `Ä` and Greek capitals.
- Text.LowerChar: the same restriction, character by character: only A–Z are mapped.
- Stories.StoryViewer.RenderStories: the engine's `Array.prototype.sort` runs no algorithm of ours. It is modelled by its result, the stable unviewed-first order, and `Stories.StableSortIsUnviewedFirst` shows that any stable sort by the comparator gives exactly that order.
- **Key events on two viewers.** The iframe's and the story viewer's key handlers both listen on the document. Each is modelled on its own, so one Escape press closing both is not modelled as a single event.

## Findings

| source | as written | input that shows it | evidently intended | confidence | as-written member | corrected member |
|---|---|---|---|---|---|---|
| script.js:271, 293-294 | On a failed download, `fetchProjects` calls `showMsg(false, 'Failed to load projects.', 'error')`. This writes the error note but hides the message element (`display: none`), so the user sees neither the spinner nor the error. | The first projects download fails, for example with a network error, while `allProjects` is still empty. | `showMsg(true, …)`: the error note is displayed. | not executed | Projects.FailedFetchAsWritten | Projects.FailedFetchIntended |

=== FILE: js.dfy ===
/**
 * The few JavaScript value rules the page logic relies on: a possibly
 * `undefined` string, truthiness of strings, and the `x || d` default idiom.
 */
module Js {

  /** A value that may be `undefined` (for instance `c[3]?.trim()` past the end of `c`). */
  datatype Option<+T> = None | Some(value: T)

  /** A string-or-undefined is truthy iff it is defined and not the empty string. */
  predicate Truthy(x: Option<string>) {
    x.Some? && x.value != ""
  }

  /** `x || d` on a string-or-undefined: `x` when it is truthy, otherwise the default `d`. */
  function OrElse(x: Option<string>, d: string): (r: string)
    ensures Truthy(x) ==> r == x.value
    ensures !Truthy(x) ==> r == d
    ensures d != "" ==> r != ""
  {
    if x.Some? && x.value != "" then x.value else d
  }
}

=== FILE: overlay.dfy ===
/**
 * The in-page iframe viewer (`openInIframe` and its close button and Escape
 * key): it shows one external URL under a title and blocks page scrolling
 * while it is open.
 */
module Overlay {
  import opened Js

  class Iframe {
    /** The container is displayed (`style.display === 'flex'`). */
    var open: bool
    /** The iframe's `src`. */
    var src: string
    /** The heading text. */
    var title: string
    /** `document.body.style.overflow` is `hidden`. */
    var scrollLocked: bool

    constructor ()
      ensures !open && src == "" && !scrollLocked
    {
      open, src, title, scrollLocked := false, "", "", false;
    }

    /** Shows `url`; the heading is `title`, or `Content` when there is none. */
    method OpenInIframe(url: string, title': Option<string>)
      modifies this
      ensures open && scrollLocked && src == url
      ensures title == OrElse(title', "Content") && title != ""
    {
      title := OrElse(title', "Content");
      src := url;
      open := true;
      scrollLocked := true;
    }

    /** The close button: hides the viewer and clears its source, whatever state it was in. */
    method Close()
      modifies this
      ensures !open && !scrollLocked && src == "" && title == old(title)
    {
      open := false;
      src := "";
      scrollLocked := false;
    }

    /** The document's key handler: Escape closes the viewer, and only when it is open. */
    method KeyDown(key: string)
      modifies this
      ensures key == "Escape" && old(open) ==> !open && src == "" && !scrollLocked && title == old(title)
      ensures !(key == "Escape" && old(open)) ==> open == old(open) && src == old(src) && title == old(title) && scrollLocked == old(scrollLocked)
    {
      if key == "Escape" && open {
        Close();
      }
    }
  }
}

=== FILE: page.dfy ===
/**
 * The page shell: the light/dark theme with its settings switch, and the
 * single-page navigation that shows one section at a time and highlights the
 * clicked navigation link.
 */
module Page {
  import opened Js
  import opened Storage
  import opened Seqs

  // ---------------------------------------------------------------- theme

  /**
   * The script run before the page is parsed (to avoid a flash of the wrong
   * theme): dark mode iff the stored theme, or `light` when none is stored,
   * is `dark`.
   */
  function EarlyDarkMode(stored: Option<string>): (r: bool)
    ensures r <==> Truthy(stored) && stored.value == "dark"
  {
    OrElse(stored, "light") == "dark"
  }

  class Theme {
    const store: Store
    /** `<html>` has the class `dark-mode`. */
    var darkMode: bool
    /** The settings switch is checked. */
    var switchChecked: bool

    /**
     * The page and the switch agree, and reloading the page would show the
     * same theme: the early script reads back what `applyTheme` stored.
     */
    ghost predicate Valid()
      reads this, store
    {
      switchChecked == darkMode && darkMode == EarlyDarkMode(store.theme)
    }

    /**
     * Page load: the early script sets the theme from the store, then the
     * start-up `applyTheme(localStorage.getItem('theme') || 'light')` syncs the
     * switch and writes the theme back. The early choice is the final one.
     */
    constructor (store: Store)
      modifies store
      ensures this.store == store && Valid()
      ensures darkMode == EarlyDarkMode(old(store.theme))
      ensures store.theme == Some(OrElse(old(store.theme), "light"))
      ensures store.viewedStories == old(store.viewedStories)
    {
      this.store := store;
      darkMode := EarlyDarkMode(store.theme);
      switchChecked := false;
      new;
      ApplyTheme(OrElse(store.theme, "light"));
    }

    /** `applyTheme(t)`: dark mode and the switch are on iff `t` is `dark`; `t` is stored as given. */
    method ApplyTheme(t: string)
      modifies this, store
      ensures darkMode <==> t == "dark"
      ensures switchChecked == darkMode
      ensures store.theme == Some(t) && store.viewedStories == old(store.viewedStories)
      ensures Valid()
    {
      if t == "dark" {
        darkMode := true;
        switchChecked := true;
      } else {
        darkMode := false;
        switchChecked := false;
      }
      store.theme := Some(t);
    }

    /** The switch's change handler: the user has set the switch to `checked`. */
    method SwitchChanged(checked: bool)
      modifies this, store
      ensures darkMode == checked && switchChecked == checked
      ensures store.theme == Some(if checked then "dark" else "light")
      ensures store.viewedStories == old(store.viewedStories)
      ensures Valid()
    {
      switchChecked := checked;
      var newTheme := if switchChecked then "dark" else "light";
      ApplyTheme(newTheme);
    }
  }

  // ----------------------------------------------------------- navigation

  /** The number of `true` flags. */
  function CountTrue(flags: seq<bool>): (r: nat)
    ensures r <= |flags|
    ensures r == multiset(flags)[true]
  {
    if flags == [] then 0
    else
      assert flags == [flags[0]] + flags[1..];
      (if flags[0] then 1 else 0) + CountTrue(flags[1..])
  }

  /**
   * When section `i` is active iff its id is `target`, and the ids are
   * distinct, at most one section is active, and exactly one iff some section
   * has the id `target`.
   */
  lemma {:induction false} OneSectionActive(ids: seq<string>, flags: seq<bool>, target: string)
    requires |flags| == |ids| && NoDuplicates(ids)
    requires forall i :: 0 <= i < |ids| ==> (flags[i] <==> ids[i] == target)
    ensures CountTrue(flags) <= 1
    ensures CountTrue(flags) == 1 <==> target in ids
  {
    if ids != [] {
      OneSectionActive(ids[1..], flags[1..], target);
      if flags[0] {
        assert target !in ids[1..] by {
          forall j | 0 <= j < |ids[1..]| ensures ids[1..][j] != target {
            assert ids[1..][j] == ids[j + 1];
          }
        }
      }
      assert target in ids <==> ids[0] == target || target in ids[1..] by {
        assert ids == [ids[0]] + ids[1..];
      }
    }
  }

  /** `href.substring(1)`: the href without its first character (`#`). */
  function DropFirst(href: string): (r: string)
    ensures |href| >= 1 ==> href == [href[0]] + r
    ensures |href| == 0 ==> r == ""
  {
    if |href| >= 1 then href[1..] else ""
  }

  class Navigation {
    /** The ids of the `.section` elements, in document order. */
    const sectionIds: seq<string>
    /** Section `i` has the class `active`. */
    const sectionActive: array<bool>
    /** The `href` of each `.nav__link`, in document order. */
    const linkHrefs: seq<string>
    /** Link `i` has the class `active-link`. */
    const linkActive: array<bool>

    ghost predicate Valid()
      reads this
    {
      sectionActive.Length == |sectionIds| && linkActive.Length == |linkHrefs|
      && sectionActive != linkActive
    }

    /** The sections and links as the page's markup has them. */
    constructor (sectionIds: seq<string>, sectionActive0: seq<bool>, linkHrefs: seq<string>, linkActive0: seq<bool>)
      requires |sectionActive0| == |sectionIds| && |linkActive0| == |linkHrefs|
      ensures Valid() && fresh(sectionActive) && fresh(linkActive)
      ensures this.sectionIds == sectionIds && this.linkHrefs == linkHrefs
      ensures sectionActive[..] == sectionActive0 && linkActive[..] == linkActive0
    {
      this.sectionIds := sectionIds;
      this.linkHrefs := linkHrefs;
      sectionActive := new bool[|sectionActive0|](i requires 0 <= i < |sectionActive0| => sectionActive0[i]);
      linkActive := new bool[|linkActive0|](i requires 0 <= i < |linkActive0| => linkActive0[i]);
    }

    /** `showSection(target)`: a section is active iff its id is `target`. */
    method ShowSection(target: string)
      requires Valid()
      modifies sectionActive
      ensures forall i :: 0 <= i < sectionActive.Length ==> (sectionActive[i] <==> sectionIds[i] == target)
    {
      for i := 0 to sectionActive.Length
        invariant forall j :: 0 <= j < i ==> (sectionActive[j] <==> sectionIds[j] == target)
      {
        sectionActive[i] := sectionIds[i] == target;
      }
    }

    /**
     * A click on navigation link `k`: the section named by its href (after
     * the `#`) is shown, and link `k` is the only active link.
     */
    method ClickLink(k: nat)
      requires Valid() && k < |linkHrefs|
      modifies sectionActive, linkActive
      ensures forall i :: 0 <= i < sectionActive.Length ==> (sectionActive[i] <==> sectionIds[i] == DropFirst(linkHrefs[k]))
      ensures forall j :: 0 <= j < linkActive.Length ==> (linkActive[j] <==> j == k)
    {
      var targetId := DropFirst(linkHrefs[k]);
      ShowSection(targetId);
      for j := 0 to linkActive.Length
        invariant forall i :: 0 <= i < sectionActive.Length ==> (sectionActive[i] <==> sectionIds[i] == targetId)
        invariant forall i :: 0 <= i < j ==> !linkActive[i]
      {
        linkActive[j] := false;
      }
      linkActive[k] := true;
    }
  }
}

=== FILE: posts.dfy ===
/**
 * The posts widget: once the download settles, the container shows the
 * failure note, the "No posts yet." placeholder, or one card per post; a
 * click on a card's image opens the post's link in the iframe viewer.
 */
module Posts {
  import opened Js
  import opened Records
  import opened Overlay

  const LoadFailedText := "Failed to load posts."
  const NoPostsText := "No posts yet."

  /** What the posts container holds. */
  datatype PostsView = Failed(text: string) | Empty(text: string) | Cards(posts: seq<Post>)

  /**
   * `loadPosts` and `renderPosts`: a failed download (`None`) shows the
   * failure note; downloaded text shows its posts, or the placeholder when
   * it has none.
   */
  function LoadPosts(download: Option<string>): (r: PostsView)
    ensures download.None? <==> r == Failed(LoadFailedText)
    ensures download.Some? ==> (r == Empty(NoPostsText) <==> ParsePosts(download.value) == [])
    ensures r.Cards? ==> download.Some? && r.posts == ParsePosts(download.value) && r.posts != []
  {
    if download.None? then Failed(LoadFailedText)
    else
      var p := ParsePosts(download.value);
      if |p| > 0 then Cards(p) else Empty(NoPostsText)
  }

  /** A text with no line after the header shows the placeholder. */
  lemma HeaderOnlyShowsPlaceholder(d: string)
    requires '\n' !in d
    ensures LoadPosts(Some(d)) == Empty(NoPostsText)
  {
    ParsePostsHeaderOnly(d);
  }

  /**
   * A click on a post's image: the viewer opens on the post's link, titled
   * with the post's title, when the link is real; otherwise nothing happens.
   */
  method ClickPost(post: Post, viewer: Iframe)
    modifies viewer
    ensures PostOpensOverlay(post) ==> viewer.open && viewer.scrollLocked && viewer.src == post.link && viewer.title == OrElse(Some(post.title), "Content")
    ensures !PostOpensOverlay(post) ==>
      viewer.open == old(viewer.open) && viewer.src == old(viewer.src)
      && viewer.title == old(viewer.title) && viewer.scrollLocked == old(viewer.scrollLocked)
  {
    if post.link != "" && post.link != "#" {
      viewer.OpenInIframe(post.link, Some(post.title));
    }
  }

  /** A parsed post always has a title, so the viewer is titled with it, never with the `Content` fallback. */
  lemma ParsedPostTitled(d: string, j: nat)
    requires j < |ParsePosts(d)|
    ensures ParsePosts(d)[j].title != "" && OrElse(Some(ParsePosts(d)[j].title), "Content") == ParsePosts(d)[j].title
  {
    ParsePostsSpec(d);
  }
}

=== FILE: projects.dfy ===
/**
 * The projects grid: the live search filter, the grid of cards and the
 * message element, which shows a loading spinner, an information note or an
 * error note.
 */
module Projects {
  import opened Js
  import opened Text
  import opened Seqs
  import opened Records
  import opened Overlay

  // --------------------------------------------------------------- search

  /** `p => p.search.includes(q)`. */
  function MatchesQuery(q: string): (r: Project -> bool)
    ensures forall p: Project :: r(p) <==> exists i: nat :: OccursAt(p.search, q, i)
    ensures q == "" ==> forall p: Project :: r(p)
  {
    (p: Project) => Contains(p.search, q)
  }

  /** `allProjects.filter(p => p.search.includes(query.toLowerCase()))`. */
  function FilterProjects(all: seq<Project>, query: string): (r: seq<Project>)
    ensures |r| <= |all|
    ensures forall j :: 0 <= j < |r| ==> Contains(r[j].search, ToLower(query))
  {
    Filter(all, MatchesQuery(ToLower(query)))
  }

  /**
   * The search result is the in-order subsequence of the projects whose search
   * key contains the lower-cased query: the `j`-th result is project `ks[j]`,
   * the `ks` strictly increase, and a project is among them iff it matches.
   */
  lemma FilterProjectsSpec(all: seq<Project>, query: string)
    ensures var r, ks := FilterProjects(all, query), KeptIndices(all, MatchesQuery(ToLower(query)));
      |r| == |ks| && StrictlyIncreasing(ks)
      && (forall j :: 0 <= j < |r| ==> ks[j] < |all| && r[j] == all[ks[j]])
      && (forall i :: 0 <= i < |all| ==> (i in ks <==> Contains(all[i].search, ToLower(query))))
  {
    FilterSpec(all, MatchesQuery(ToLower(query)));
  }

  /** The empty query shows every project. */
  lemma EmptyQueryShowsAll(all: seq<Project>)
    ensures FilterProjects(all, "") == all
  {
    forall k | 0 <= k < |all| ensures MatchesQuery(ToLower(""))(all[k]) {
      assert OccursAt(all[k].search, "", 0);
    }
    FilterAll(all, MatchesQuery(ToLower("")));
  }

  /** The search ignores the case of the query's ASCII letters. */
  lemma SearchIgnoresQueryCase(all: seq<Project>, query: string)
    ensures FilterProjects(all, query) == FilterProjects(all, ToLower(query))
  {
    ToLowerIdempotent(query);
  }

  /** A parsed project matches a query iff its lower-cased name contains the lower-cased query. */
  lemma ParsedProjectMatches(d: string, query: string, j: nat)
    requires j < |ParseProjects(d)|
    ensures MatchesQuery(ToLower(query))(ParseProjects(d)[j]) <==> Contains(ToLower(ParseProjects(d)[j].name), ToLower(query))
  {
    ParseProjectsSpec(d);
  }

  /** Every result of a search is a project of the list searched. */
  lemma FilterProjectsFrom(all: seq<Project>, query: string)
    ensures forall j :: 0 <= j < |FilterProjects(all, query)| ==> FilterProjects(all, query)[j] in all
  {
    FilterProjectsSpec(all, query);
  }

  // ------------------------------------------------------------ the grid

  datatype MsgKind = Info | Error

  /** The message element's content: the loading spinner, or an icon and a text. */
  datatype Message = Loading | Note(text: string, kind: MsgKind)

  const NoMatchText := "No projects match search."
  const LoadFailedText := "Failed to load projects."

  /** Every project has a name and a link (what the parser keeps). */
  predicate AllLinked(ps: seq<Project>) {
    forall k :: 0 <= k < |ps| ==> KeepProject(ps[k])
  }

  class ProjectGrid {
    /** `allProjects`. */
    var all: seq<Project>
    /** The cards in the grid, in order. */
    var grid: seq<Project>
    /** The message element is displayed. */
    var msgShown: bool
    var msg: Message

    ghost predicate Valid()
      reads this
    {
      AllLinked(all) && AllLinked(grid)
    }

    /** Setting up the widget and the start of `fetchProjects`: the loading spinner shows. */
    constructor ()
      ensures Valid() && all == [] && grid == []
      ensures msgShown && msg == Loading
    {
      all, grid := [], [];
      msgShown, msg := true, Loading;
    }

    /** `showMsg(show, text, type)`: no text means the loading spinner. */
    method ShowMsg(show: bool, text: Option<string>, kind: MsgKind)
      modifies this`msgShown, this`msg
      ensures msgShown == show
      ensures msg == if Truthy(text) then Note(text.value, kind) else Loading
    {
      msgShown := show;
      msg := if Truthy(text) then Note(text.value, kind) else Loading;
    }

    /**
     * `displayProjects(p)`: the grid holds exactly `p`; an empty `p` shows the
     * "No projects match search." note, and otherwise the message is hidden.
     */
    method DisplayProjects(p: seq<Project>)
      requires AllLinked(p)
      modifies this`grid, this`msgShown, this`msg
      ensures grid == p
      ensures p == [] ==> msgShown && msg == Note(NoMatchText, Info)
      ensures p != [] ==> !msgShown && msg == Loading
    {
      grid := [];
      ShowMsg(false, None, Info);
      if |p| == 0 {
        ShowMsg(true, Some(NoMatchText), Info);
        return;
      }
      grid := p;
    }

    /**
     * The rest of `fetchProjects` once the download completes, as written:
     * text (`Some`) is parsed into `allProjects` and displayed; a failed
     * download (`None`) calls `showMsg(false, 'Failed to load projects.', 'error')`,
     * which writes the error note into a HIDDEN message element.
     */
    method FetchCompleted(download: Option<string>)
      requires Valid()
      modifies this
      ensures Valid()
      ensures download.Some? ==> all == ParseProjects(download.value) && grid == all
      ensures download.Some? && all == [] ==> msgShown && msg == Note(NoMatchText, Info)
      ensures download.Some? && all != [] ==> !msgShown && msg == Loading
      ensures download.None? ==> all == old(all) && grid == old(grid) && !msgShown
      ensures download.None? && old(all) != [] ==> msg == Loading
      ensures download.None? && old(all) == [] ==> msg == Note(LoadFailedText, Error)
    {
      if download.Some? {
        all := ParseProjects(download.value);
        DisplayProjects(all);
      } else {
        ShowMsg(false, Some(LoadFailedText), Error);
      }
      // finally
      if |all| > 0 {
        ShowMsg(false, None, Info);
      }
    }

    /**
     * `fetchProjects` as evidently intended: a failed download shows the
     * error note (`showMsg(true, ...)`); everything else as in `FetchCompleted`.
     */
    method FetchCompletedIntended(download: Option<string>)
      requires Valid()
      modifies this
      ensures Valid()
      ensures download.Some? ==> all == ParseProjects(download.value) && grid == all
      ensures download.Some? && all == [] ==> msgShown && msg == Note(NoMatchText, Info)
      ensures download.Some? && all != [] ==> !msgShown && msg == Loading
      ensures download.None? ==> all == old(all) && grid == old(grid)
      ensures download.None? && old(all) != [] ==> !msgShown && msg == Loading
      ensures download.None? && old(all) == [] ==> msgShown && msg == Note(LoadFailedText, Error)
    {
      if download.Some? {
        all := ParseProjects(download.value);
        DisplayProjects(all);
      } else {
        ShowMsg(true, Some(LoadFailedText), Error);
      }
      if |all| > 0 {
        ShowMsg(false, None, Info);
      }
    }

    /**
     * The search box's input handler (its 300 ms debounce aside): the grid is
     * the matching projects in order, and an empty result shows the
     * information note, never the error note.
     */
    method Search(query: string)
      requires Valid()
      modifies this`grid, this`msgShown, this`msg
      ensures Valid() && all == old(all)
      ensures grid == FilterProjects(all, query)
      ensures grid == [] ==> msgShown && msg == Note(NoMatchText, Info)
      ensures grid != [] ==> !msgShown && msg == Loading
      ensures msg.Note? ==> msg.kind == Info
    {
      var found := FilterProjects(all, query);
      FilterProjectsFrom(all, query);
      DisplayProjects(found);
    }

    /** A click on a card opens the project's link in the iframe viewer, titled with its name. */
    method ClickCard(k: nat, viewer: Iframe)
      requires Valid() && k < |grid|
      modifies viewer
      ensures viewer.open && viewer.scrollLocked
      ensures viewer.src == grid[k].link.value && viewer.title == grid[k].name
    {
      viewer.OpenInIframe(grid[k].link.value, Some(grid[k].name));
    }
  }

  /**
   * The failed first download as written: the grid is set up with the spinner,
   * the download fails, and the error note ends up in a hidden element.
   */
  method FailedFetchAsWritten() returns (shown: bool, msg: Message)
    ensures !shown && msg == Note(LoadFailedText, Error)
  {
    var g := new ProjectGrid();
    g.FetchCompleted(None);
    shown, msg := g.msgShown, g.msg;
  }

  /** The same failed first download as intended: the error note is displayed. */
  method FailedFetchIntended() returns (shown: bool, msg: Message)
    ensures shown && msg == Note(LoadFailedText, Error)
  {
    var g := new ProjectGrid();
    g.FetchCompletedIntended(None);
    shown, msg := g.msgShown, g.msg;
  }
}

=== FILE: records.dfy ===
/**
 * The three line parsers of the page (stories, posts, projects): each splits
 * the downloaded text on '\n', splits every line on ',' (no quoting, no
 * escapes), trims every field, fills in defaults and keeps the rows whose
 * required fields are non-empty.
 */
module Records {
  import opened Js
  import opened Text
  import opened Seqs

  /** Column `k` of a split line, trimmed; `undefined` past the end of the line (`c[k]?.trim()`). */
  function Cell(cells: seq<string>, k: nat): (r: Option<string>)
    ensures r.Some? <==> k < |cells|
    ensures r.Some? ==> r.value == Trim(cells[k])
    ensures Truthy(r) <==> Filled(cells, k)
  {
    if k < |cells| then TrimEmptyIff(cells[k]); Some(Trim(cells[k])) else None
  }

  /** A column is present and has a character that is not white space. */
  predicate Filled(cells: seq<string>, k: nat) {
    k < |cells| && exists i :: 0 <= i < |cells[k]| && !IsWhite(cells[k][i])
  }

  /** Every line after the first (the header): `d.split('\n').slice(1)`. */
  function DataLines(d: string): (r: seq<string>)
    ensures |r| == |Split(d, '\n')| - 1
    ensures forall k :: 0 <= k < |r| ==> '\n' !in r[k]
    ensures Join([Split(d, '\n')[0]] + r, '\n') == d
  {
    var lines := Split(d, '\n');
    JoinSplit(d, '\n');
    assert lines == [lines[0]] + lines[1..];
    lines[1..]
  }

  /** Text without a line break is a header alone, and has no data line; the empty text is such a text. */
  lemma DataLinesHeaderOnly(d: string)
    requires '\n' !in d
    ensures DataLines(d) == []
  {
    SplitNone(d, '\n');
  }

  // ---------------------------------------------------------------- stories

  datatype Story = Story(thumbUrl: string, imageUrl: Option<string>, link: Option<string>, title: string, id: string)

  /** The id of the story on data line `i`: `story-${i}`. */
  function StoryId(i: nat): (r: string)
    ensures |r| > 6 && r[..6] == "story-"
    ensures forall k :: 6 <= k < |r| ==> '0' <= r[k] <= '9'
  {
    "story-" + Decimal(i)
  }

  /** Distinct data lines give distinct story ids. */
  lemma StoryIdInjective(i: nat, j: nat)
    ensures StoryId(i) == StoryId(j) <==> i == j
  {
    if StoryId(i) == StoryId(j) {
      assert Decimal(i) == StoryId(i)[6..];
      assert Decimal(j) == StoryId(j)[6..];
      DecimalInjective(i, j);
    }
  }

  /** The record built from data line `line` at position `i`, before filtering. */
  function StoryFromLine(line: string, i: nat): (r: Story)
    ensures var c := Split(line, ',');
      r.thumbUrl == Trim(c[0]) && r.imageUrl == Cell(c, 1) && r.link == Cell(c, 2)
      && (Truthy(Cell(c, 3)) ==> r.title == Cell(c, 3).value)
      && (!Truthy(Cell(c, 3)) ==> r.title == "Untitled")
    ensures r.title != "" && r.id == StoryId(i)
  {
    var c := Split(line, ',');
    Story(Trim(c[0]), Cell(c, 1), Cell(c, 2), OrElse(Cell(c, 3), "Untitled"), StoryId(i))
  }

  function StoryRows(lines: seq<string>): (r: seq<Story>)
    ensures |r| == |lines|
    ensures forall i :: 0 <= i < |lines| ==> r[i] == StoryFromLine(lines[i], i)
  {
    MapIndexed(lines, StoryFromLine, 0)
  }

  /** `s => s.thumbUrl && s.imageUrl`. */
  predicate KeepStory(s: Story) {
    s.thumbUrl != "" && Truthy(s.imageUrl)
  }

  /** The stories of the downloaded text, in sheet order. */
  function ParseStories(d: string): (r: seq<Story>)
    ensures forall j :: 0 <= j < |r| ==> r[j].thumbUrl != "" && Truthy(r[j].imageUrl)
  {
    Filter(StoryRows(DataLines(d)), KeepStory)
  }

  /** A data line yields a story iff its first two columns have a non-white character. */
  predicate StoryLineKept(line: string) {
    var c := Split(line, ',');
    Filled(c, 0) && Filled(c, 1)
  }

  /**
   * The parsed stories are exactly the data lines that `StoryLineKept`,
   * in order: the `j`-th story comes from data line `ks[j]`, the `ks` are
   * strictly increasing, and its id is `story-` followed by that line number
   * (counted before filtering, so ids can have gaps).
   */
  lemma ParseStoriesSpec(d: string)
    ensures var lines, r, ks := DataLines(d), ParseStories(d), KeptIndices(StoryRows(DataLines(d)), KeepStory);
      |r| == |ks| && StrictlyIncreasing(ks)
      && (forall j :: 0 <= j < |r| ==> ks[j] < |lines| && r[j] == StoryFromLine(lines[ks[j]], ks[j]) && r[j].id == StoryId(ks[j]))
      && (forall i :: 0 <= i < |lines| ==> (i in ks <==> StoryLineKept(lines[i])))
  {
    var lines, rows := DataLines(d), StoryRows(DataLines(d));
    FilterSpec(rows, KeepStory);
    forall i | 0 <= i < |lines| ensures KeepStory(rows[i]) <==> StoryLineKept(lines[i]) {
      KeepStoryIff(lines[i], i);
    }
  }

  /** The story built from a line passes `s => s.thumbUrl && s.imageUrl` iff its first two columns have a non-white character. */
  lemma KeepStoryIff(line: string, i: nat)
    ensures KeepStory(StoryFromLine(line, i)) <==> StoryLineKept(line)
  {
    var c := Split(line, ',');
    assert Trim(c[0]) != "" <==> Truthy(Cell(c, 0));
  }

  /** Every parsed story has a title: its own, or `Untitled`. */
  lemma ParseStoriesTitled(d: string)
    ensures var r := ParseStories(d);
      forall j :: 0 <= j < |r| ==> r[j].title != ""
  {
    ParseStoriesSpec(d);
  }

  /** No two parsed stories share an id. */
  lemma StoryIdsDistinct(d: string)
    ensures var r := ParseStories(d);
      forall j, k :: 0 <= j < k < |r| ==> r[j].id != r[k].id
  {
    ParseStoriesSpec(d);
    var r, ks := ParseStories(d), KeptIndices(StoryRows(DataLines(d)), KeepStory);
    forall j, k | 0 <= j < k < |r| ensures r[j].id != r[k].id {
      StoryIdInjective(ks[j], ks[k]);
    }
  }

  /** The empty text and a header alone yield no story. */
  lemma ParseStoriesHeaderOnly(d: string)
    requires '\n' !in d
    ensures ParseStories(d) == []
  {
    DataLinesHeaderOnly(d);
  }

  // ------------------------------------------------------------------ posts

  datatype Post = Post(imageUrl: string, title: string, link: string)

  function PostFromLine(line: string): (r: Post)
    ensures var c := Split(line, ',');
      r.imageUrl == Trim(c[0])
      && (Truthy(Cell(c, 1)) ==> r.title == Cell(c, 1).value)
      && (!Truthy(Cell(c, 1)) ==> r.title == "Untitled")
      && (Truthy(Cell(c, 2)) ==> r.link == Cell(c, 2).value)
      && (!Truthy(Cell(c, 2)) ==> r.link == "#")
    ensures r.title != "" && r.link != ""
  {
    var c := Split(line, ',');
    Post(Trim(c[0]), OrElse(Cell(c, 1), "Untitled"), OrElse(Cell(c, 2), "#"))
  }

  function PostRows(lines: seq<string>): (r: seq<Post>)
    ensures |r| == |lines|
    ensures forall i :: 0 <= i < |lines| ==> r[i] == PostFromLine(lines[i])
  {
    Map(lines, PostFromLine)
  }

  /** `p => p.imageUrl`. */
  predicate KeepPost(p: Post) {
    p.imageUrl != ""
  }

  /** The posts of the downloaded text, in sheet order. */
  function ParsePosts(d: string): (r: seq<Post>)
    ensures forall j :: 0 <= j < |r| ==> r[j].imageUrl != ""
  {
    Filter(PostRows(DataLines(d)), KeepPost)
  }

  /** The parsed posts are exactly the data lines whose first column has a non-white character, in order. */
  lemma ParsePostsSpec(d: string)
    ensures var lines, r, ks := DataLines(d), ParsePosts(d), KeptIndices(PostRows(DataLines(d)), KeepPost);
      |r| == |ks| && StrictlyIncreasing(ks)
      && (forall j :: 0 <= j < |r| ==> ks[j] < |lines| && r[j] == PostFromLine(lines[ks[j]]))
      && (forall i :: 0 <= i < |lines| ==> (i in ks <==> Filled(Split(lines[i], ','), 0)))
  {
    var lines, rows := DataLines(d), PostRows(DataLines(d));
    FilterSpec(rows, KeepPost);
    forall i | 0 <= i < |lines| ensures KeepPost(rows[i]) <==> Filled(Split(lines[i], ','), 0) {
      KeepPostIff(lines[i]);
    }
  }

  /** The post built from a line passes `p => p.imageUrl` iff its first column has a non-white character. */
  lemma KeepPostIff(line: string)
    ensures KeepPost(PostFromLine(line)) <==> Filled(Split(line, ','), 0)
  {
    var c := Split(line, ',');
    assert Trim(c[0]) != "" <==> Truthy(Cell(c, 0));
  }

  /** The empty text and a header alone yield no post. */
  lemma ParsePostsHeaderOnly(d: string)
    requires '\n' !in d
    ensures ParsePosts(d) == []
  {
    DataLinesHeaderOnly(d);
  }

  /** A click on a post opens the overlay only for a real link: present and not the placeholder `#`. */
  predicate PostOpensOverlay(p: Post) {
    p.link != "" && p.link != "#"
  }

  /** A post opens the overlay iff its third column, trimmed, is neither empty nor `#`. */
  lemma PostOpensIff(line: string)
    ensures var c := Split(line, ',');
      PostOpensOverlay(PostFromLine(line)) <==> Filled(c, 2) && Trim(c[2]) != "#"
  {
    var c := Split(line, ',');
    assert Truthy(Cell(c, 2)) <==> Filled(c, 2);
  }

  // --------------------------------------------------------------- projects

  /** `CFG.icon`: the icon of a project whose icon column is empty. */
  const DefaultIcon := "https://cdn.jsdelivr.net/gh/twitter/twemoji@14.0.2/assets/svg/1f4bb.svg"

  datatype Project = Project(name: string, icon: string, link: Option<string>, search: string)

  function ProjectFromLine(line: string): (r: Project)
    ensures var c := Split(line, ',');
      r.name == Trim(c[0]) && r.link == Cell(c, 2)
      && (Truthy(Cell(c, 1)) ==> r.icon == Cell(c, 1).value)
      && (!Truthy(Cell(c, 1)) ==> r.icon == DefaultIcon)
    ensures r.icon != "" && r.search == ToLower(r.name)
  {
    var c := Split(line, ',');
    var n := Trim(c[0]);
    Project(n, OrElse(Cell(c, 1), DefaultIcon), Cell(c, 2), ToLower(n))
  }

  function ProjectRows(lines: seq<string>): (r: seq<Project>)
    ensures |r| == |lines|
    ensures forall i :: 0 <= i < |lines| ==> r[i] == ProjectFromLine(lines[i])
  {
    Map(lines, ProjectFromLine)
  }

  /** `p => p.name && p.link`. */
  predicate KeepProject(p: Project) {
    p.name != "" && Truthy(p.link)
  }

  /** Every line of the trimmed text, the first one included: `d.trim().split('\n')`. */
  function ProjectLines(d: string): (r: seq<string>)
    ensures |r| >= 1
    ensures forall k :: 0 <= k < |r| ==> '\n' !in r[k]
  {
    Split(Trim(d), '\n')
  }

  /** No line is lost: joining the lines with '\n' rebuilds the trimmed text. */
  lemma ProjectLinesRebuild(d: string)
    ensures Join(ProjectLines(d), '\n') == Trim(d)
  {
    JoinSplit(Trim(d), '\n');
  }

  /** The projects of the downloaded text, in sheet order. */
  function ParseProjects(d: string): (r: seq<Project>)
    ensures forall j :: 0 <= j < |r| ==> r[j].name != "" && Truthy(r[j].link)
  {
    Filter(ProjectRows(ProjectLines(d)), KeepProject)
  }

  /**
   * The parsed projects are exactly the lines (the first one too) whose first
   * and third columns have a non-white character, in order.
   */
  lemma ParseProjectsSpec(d: string)
    ensures var lines, r, ks := ProjectLines(d), ParseProjects(d), KeptIndices(ProjectRows(ProjectLines(d)), KeepProject);
      |r| == |ks| && StrictlyIncreasing(ks)
      && (forall j :: 0 <= j < |r| ==> ks[j] < |lines| && r[j] == ProjectFromLine(lines[ks[j]]))
      && (forall i :: 0 <= i < |lines| ==> (i in ks <==> ProjectLineKept(lines[i])))
  {
    FilterSpec(ProjectRows(ProjectLines(d)), KeepProject);
    ProjectRowsKept(ProjectLines(d));
  }

  /** Row `i` is kept iff line `i` has a name and a link. */
  lemma ProjectRowsKept(lines: seq<string>)
    ensures forall i :: 0 <= i < |lines| ==> (KeepProject(ProjectRows(lines)[i]) <==> ProjectLineKept(lines[i]))
  {
    forall i | 0 <= i < |lines|
      ensures KeepProject(ProjectRows(lines)[i]) <==> ProjectLineKept(lines[i])
    {
      KeepProjectIff(lines[i]);
    }
  }

  /** The first and third columns of `line` have a non-white character. */
  predicate ProjectLineKept(line: string) {
    var c := Split(line, ',');
    Filled(c, 0) && Filled(c, 2)
  }

  /** A line makes a project iff its first and third columns have a non-white character. */
  lemma KeepProjectIff(line: string)
    ensures KeepProject(ProjectFromLine(line)) <==> ProjectLineKept(line)
  {
    var c := Split(line, ',');
    assert Truthy(Cell(c, 2)) <==> Filled(c, 2);
    assert Trim(c[0]) != "" <==> Truthy(Cell(c, 0));
  }

  /**
   * Unlike the story and post parsers, the project parser does not skip a
   * header: when the first line of the trimmed text has a name and a link
   * (a header such as `name,icon,link` does), it is the first project.
   */
  lemma ParseProjectsKeepsFirstLine(d: string)
    requires ProjectLineKept(ProjectLines(d)[0])
    ensures |ParseProjects(d)| >= 1 && ParseProjects(d)[0] == ProjectFromLine(ProjectLines(d)[0])
  {
    ParseProjectsSpec(d);
    var ks := KeptIndices(ProjectRows(ProjectLines(d)), KeepProject);
    assert 0 in ks;
    var j :| 0 <= j < |ks| && ks[j] == 0;
    assert j == 0;
  }
}

=== FILE: seqs.dfy ===
/**
 * `Array.prototype.filter` on sequences, and the indices it keeps: the
 * filtered sequence is the in-order subsequence of the input at exactly the
 * indices whose element passes the test.
 */
module Seqs {

  /** No element occurs twice. */
  predicate NoDuplicates<T(==)>(xs: seq<T>) {
    forall i, j :: 0 <= i < j < |xs| ==> xs[i] != xs[j]
  }

  /** `xs.filter(keep)`. */
  function Filter<T>(xs: seq<T>, keep: T -> bool): (r: seq<T>)
    ensures |r| <= |xs|
    ensures forall k :: 0 <= k < |r| ==> keep(r[k])
  {
    if xs == [] then []
    else (if keep(xs[0]) then [xs[0]] else []) + Filter(xs[1..], keep)
  }

  /** `xs.map(f)`. */
  function Map<A, B>(xs: seq<A>, f: A -> B): (r: seq<B>)
    ensures |r| == |xs|
    ensures forall i :: 0 <= i < |xs| ==> r[i] == f(xs[i])
  {
    if xs == [] then [] else [f(xs[0])] + Map(xs[1..], f)
  }

  /** `xs.map((x, i) => f(x, i0 + i))`: `f` also receives the position, counted from `i0`. */
  function MapIndexed<A, B>(xs: seq<A>, f: (A, nat) -> B, i0: nat): (r: seq<B>)
    ensures |r| == |xs|
    ensures forall i :: 0 <= i < |xs| ==> r[i] == f(xs[i], i0 + i)
  {
    if xs == [] then [] else [f(xs[0], i0)] + MapIndexed(xs[1..], f, i0 + 1)
  }

  /** Every index in `ks` shifted by `d`. */
  function Shift(ks: seq<nat>, d: nat): (r: seq<nat>)
    ensures |r| == |ks|
    ensures forall j :: 0 <= j < |ks| ==> r[j] == ks[j] + d
  {
    seq(|ks|, j requires 0 <= j < |ks| => ks[j] + d)
  }

  /** The indices of `xs` whose element passes `keep`, in increasing order. */
  function KeptIndices<T>(xs: seq<T>, keep: T -> bool): seq<nat> {
    if xs == [] then []
    else (if keep(xs[0]) then [0] else []) + Shift(KeptIndices(xs[1..], keep), 1)
  }

  predicate StrictlyIncreasing(ks: seq<nat>) {
    forall i, j :: 0 <= i < j < |ks| ==> ks[i] < ks[j]
  }

  /** The kept indices are in range and strictly increasing, one per element `Filter` returns. */
  lemma {:induction false} KeptIndicesShape<T>(xs: seq<T>, keep: T -> bool)
    ensures var ks := KeptIndices(xs, keep);
      |ks| == |Filter(xs, keep)| && StrictlyIncreasing(ks)
      && forall j :: 0 <= j < |ks| ==> ks[j] < |xs|
  {
    if xs != [] {
      KeptIndicesShape(xs[1..], keep);
    }
  }

  /** The `j`-th element `Filter` returns is the input element at the `j`-th kept index. */
  lemma {:induction false} FilterAt<T>(xs: seq<T>, keep: T -> bool, j: nat)
    requires j < |KeptIndices(xs, keep)|
    ensures KeptIndices(xs, keep)[j] < |xs| && j < |Filter(xs, keep)|
    ensures Filter(xs, keep)[j] == xs[KeptIndices(xs, keep)[j]]
  {
    var r, ks := Filter(xs, keep), KeptIndices(xs, keep);
    var r', ks' := Filter(xs[1..], keep), KeptIndices(xs[1..], keep);
    var h: seq<nat> := if keep(xs[0]) then [0] else [];
    var hx: seq<T> := if keep(xs[0]) then [xs[0]] else [];
    assert ks == h + Shift(ks', 1);
    assert r == hx + r';
    if j >= |h| {
      FilterAt(xs[1..], keep, j - |h|);
      assert r[j] == r'[j - |h|];
      assert ks[j] == ks'[j - |h|] + 1;
      assert xs[1..][ks'[j - |h|]] == xs[ks[j]];
    }
  }

  /** `x` is among the shifted indices iff `x - d` is among the original ones. */
  lemma ShiftMember(ks: seq<nat>, d: nat, x: nat)
    ensures x in Shift(ks, d) <==> x >= d && x - d in ks
  {
    if x in Shift(ks, d) {
      var j :| 0 <= j < |ks| && Shift(ks, d)[j] == x;
    }
    if x >= d && x - d in ks {
      var j :| 0 <= j < |ks| && ks[j] == x - d;
      assert Shift(ks, d)[j] == x;
    }
  }

  /** An index is kept iff its element passes the test. */
  lemma {:induction false} KeptIff<T>(xs: seq<T>, keep: T -> bool, i: nat)
    requires i < |xs|
    ensures i in KeptIndices(xs, keep) <==> keep(xs[i])
  {
    var ks' := KeptIndices(xs[1..], keep);
    var h: seq<nat> := if keep(xs[0]) then [0] else [];
    assert KeptIndices(xs, keep) == h + Shift(ks', 1);
    ShiftMember(ks', 1, i);
    if i > 0 {
      KeptIff(xs[1..], keep, i - 1);
      assert xs[1..][i - 1] == xs[i];
    }
  }

  /** `Filter` returns, in order, exactly the elements at the indices whose element passes. */
  lemma FilterSpec<T>(xs: seq<T>, keep: T -> bool)
    ensures var r, ks := Filter(xs, keep), KeptIndices(xs, keep);
      |r| == |ks| && StrictlyIncreasing(ks)
      && (forall j :: 0 <= j < |ks| ==> ks[j] < |xs| && r[j] == xs[ks[j]])
      && (forall i :: 0 <= i < |xs| ==> (i in ks <==> keep(xs[i])))
  {
    var ks := KeptIndices(xs, keep);
    KeptIndicesShape(xs, keep);
    forall j | 0 <= j < |ks| ensures Filter(xs, keep)[j] == xs[ks[j]] {
      FilterAt(xs, keep, j);
    }
    forall i | 0 <= i < |xs| ensures i in ks <==> keep(xs[i]) {
      KeptIff(xs, keep, i);
    }
  }

  /** An element that passes is kept: filtering by a test every element passes changes nothing. */
  lemma {:induction false} FilterAll<T>(xs: seq<T>, keep: T -> bool)
    requires forall k :: 0 <= k < |xs| ==> keep(xs[k])
    ensures Filter(xs, keep) == xs
  {
    if xs != [] {
      FilterAll(xs[1..], keep);
    }
  }

  /** Filtering by a test no element passes leaves nothing. */
  lemma {:induction false} FilterNone<T>(xs: seq<T>, keep: T -> bool)
    requires forall k :: 0 <= k < |xs| ==> !keep(xs[k])
    ensures Filter(xs, keep) == []
  {
    if xs != [] {
      FilterNone(xs[1..], keep);
    }
  }

  /** Filtering distributes over concatenation. */
  lemma {:induction false} FilterAppend<T>(xs: seq<T>, ys: seq<T>, keep: T -> bool)
    ensures Filter(xs + ys, keep) == Filter(xs, keep) + Filter(ys, keep)
  {
    if xs == [] {
      assert xs + ys == ys;
    } else {
      assert (xs + ys)[1..] == xs[1..] + ys;
      FilterAppend(xs[1..], ys, keep);
    }
  }

  /**
   * Two complementary tests split a sequence: the elements passing one and
   * the elements passing the other together hold each element as often as
   * the sequence does.
   */
  lemma {:induction false} FilterPartition<T>(xs: seq<T>, keep: T -> bool, drop: T -> bool)
    requires forall k :: 0 <= k < |xs| ==> keep(xs[k]) != drop(xs[k])
    ensures multiset(Filter(xs, keep)) + multiset(Filter(xs, drop)) == multiset(xs)
  {
    if xs != [] {
      FilterPartition(xs[1..], keep, drop);
      assert xs == [xs[0]] + xs[1..];
    }
  }

  /** When exactly the first `m` elements pass, filtering keeps those `m`. */
  lemma {:induction false} FilterKeepsFront<T>(xs: seq<T>, keep: T -> bool, m: nat)
    requires m <= |xs|
    requires forall k :: 0 <= k < m ==> keep(xs[k])
    requires forall k :: m <= k < |xs| ==> !keep(xs[k])
    ensures Filter(xs, keep) == xs[..m]
  {
    if m == 0 {
      FilterNone(xs, keep);
    } else {
      FilterKeepsFront(xs[1..], keep, m - 1);
      assert xs[..m] == [xs[0]] + xs[1..][..m - 1];
    }
  }

  /** When exactly the elements from `m` on pass, filtering keeps those. */
  lemma {:induction false} FilterKeepsBack<T>(xs: seq<T>, keep: T -> bool, m: nat)
    requires m <= |xs|
    requires forall k :: 0 <= k < m ==> !keep(xs[k])
    requires forall k :: m <= k < |xs| ==> keep(xs[k])
    ensures Filter(xs, keep) == xs[m..]
  {
    if m == 0 {
      FilterAll(xs, keep);
    } else {
      FilterKeepsBack(xs[1..], keep, m - 1);
      assert xs[m..] == xs[1..][m - 1..];
    }
  }

  /**
   * A sequence whose first `m` elements pass `keep` (and fail `drop`) and
   * whose other elements pass `drop` (and fail `keep`) is its `keep`
   * elements followed by its `drop` elements.
   */
  lemma FilterSplitAt<T>(xs: seq<T>, keep: T -> bool, drop: T -> bool, m: nat)
    requires m <= |xs|
    requires forall k :: 0 <= k < m ==> keep(xs[k]) && !drop(xs[k])
    requires forall k :: m <= k < |xs| ==> !keep(xs[k]) && drop(xs[k])
    ensures xs == Filter(xs, keep) + Filter(xs, drop)
  {
    FilterKeepsFront(xs, keep, m);
    FilterKeepsBack(xs, drop, m);
    assert xs == xs[..m] + xs[m..];
  }
}

=== FILE: store.dfy ===
/**
 * The browser's `localStorage` as the page uses it: two keys, `theme` (a
 * string) and `viewedStories` (a JSON array of story ids, held here already
 * decoded). A key that was never written reads as `null` (None).
 */
module Storage {
  import opened Js

  class Store {
    var theme: Option<string>
    var viewedStories: Option<seq<string>>

    constructor (theme0: Option<string>, viewedStories0: Option<seq<string>>)
      ensures theme == theme0 && viewedStories == viewedStories0
    {
      theme := theme0;
      viewedStories := viewedStories0;
    }
  }
}

=== FILE: stories.dfy ===
/**
 * The stories widget: the list of viewed story ids, the unviewed-first
 * ordering of the story strip, and the full-screen viewer with its
 * five-second auto-advance interval.
 */
module Stories {
  import opened Js
  import opened Seqs
  import opened Records
  import opened Storage
  import opened Overlay

  // ------------------------------------------------------- the viewed list

  /** `markViewed` on the id list: append `id` unless it is already there. */
  function WithViewed(viewed: seq<string>, id: string): (r: seq<string>)
    ensures viewed <= r && id in r
    ensures |r| <= |viewed| + 1
  {
    if id in viewed then viewed else viewed + [id]
  }

  /** The list gains `id` and nothing else, and a list with no duplicate id keeps none. */
  lemma WithViewedMembers(viewed: seq<string>, id: string)
    ensures forall x :: x in WithViewed(viewed, id) <==> x in viewed || x == id
    ensures NoDuplicates(viewed) ==> NoDuplicates(WithViewed(viewed, id))
  {
  }

  /** Marking an id a second time changes nothing. */
  lemma WithViewedIdempotent(viewed: seq<string>, id: string)
    ensures WithViewed(WithViewed(viewed, id), id) == WithViewed(viewed, id)
  {
  }

  // ------------------------------------------------------------- ordering

  /** The sort key: -1 for a story not yet viewed, 1 for a viewed one. */
  function Rank(s: Story, viewed: seq<string>): int {
    if s.id in viewed then 1 else -1
  }

  /** The comparator of `renderStories`. */
  function Compare(a: Story, b: Story, viewed: seq<string>): int {
    Rank(a, viewed) - Rank(b, viewed)
  }

  /**
   * The comparator's sign depends only on the two groups: negative when `a`
   * is unviewed and `b` viewed, positive in the opposite case, zero within a group.
   */
  lemma CompareSign(a: Story, b: Story, viewed: seq<string>)
    ensures Compare(a, b, viewed) < 0 <==> a.id !in viewed && b.id in viewed
    ensures Compare(a, b, viewed) > 0 <==> a.id in viewed && b.id !in viewed
    ensures Compare(a, b, viewed) == 0 <==> (a.id in viewed <==> b.id in viewed)
  {
  }

  /** No pair is out of order under `Compare`. */
  predicate SortedBy(r: seq<Story>, viewed: seq<string>) {
    forall i, j :: 0 <= i < j < |r| ==> Compare(r[i], r[j], viewed) <= 0
  }

  /** The stories that are (`seen`) or are not (`!seen`) in the viewed list. */
  function InGroup(viewed: seq<string>, seen: bool): Story -> bool {
    (s: Story) => (s.id in viewed) == seen
  }

  /** Every story not viewed, then every viewed one, each group in its original order. */
  function UnviewedFirst(s: seq<Story>, viewed: seq<string>): (r: seq<Story>)
    ensures SortedBy(r, viewed)
  {
    var a, b := Filter(s, InGroup(viewed, false)), Filter(s, InGroup(viewed, true));
    assert forall i, j :: 0 <= i < j < |a + b| ==> Compare((a + b)[i], (a + b)[j], viewed) <= 0 by {
      forall i, j | 0 <= i < j < |a + b| ensures Compare((a + b)[i], (a + b)[j], viewed) <= 0 {
        if i < |a| {
          assert InGroup(viewed, false)(a[i]);
        }
        if j >= |a| {
          assert InGroup(viewed, true)(b[j - |a|]);
        }
      }
    }
    a + b
  }

  /** The two groups split the stories: together they hold each story as often as the input does. */
  lemma GroupsPartition(s: seq<Story>, viewed: seq<string>)
    ensures multiset(Filter(s, InGroup(viewed, false))) + multiset(Filter(s, InGroup(viewed, true))) == multiset(s)
  {
    FilterPartition(s, InGroup(viewed, false), InGroup(viewed, true));
  }

  /** The ordering is a permutation of the stories. */
  lemma UnviewedFirstPermutes(s: seq<Story>, viewed: seq<string>)
    ensures multiset(UnviewedFirst(s, viewed)) == multiset(s)
  {
    GroupsPartition(s, viewed);
  }

  /** The ordering is stable: within each group the stories keep their relative order. */
  lemma UnviewedFirstStable(s: seq<Story>, viewed: seq<string>, seen: bool)
    ensures Filter(UnviewedFirst(s, viewed), InGroup(viewed, seen)) == Filter(s, InGroup(viewed, seen))
  {
    var a, b := Filter(s, InGroup(viewed, false)), Filter(s, InGroup(viewed, true));
    var g := InGroup(viewed, seen);
    FilterAppend(a, b, g);
    if seen {
      FilterNone(a, g);
      FilterAll(b, g);
    } else {
      FilterAll(a, g);
      FilterNone(b, g);
    }
  }

  /** The end of the run of unviewed stories that starts at `i`. */
  function UnviewedRun(t: seq<Story>, viewed: seq<string>, i: nat): (m: nat)
    requires i <= |t|
    ensures i <= m <= |t|
    ensures forall k :: i <= k < m ==> t[k].id !in viewed
    ensures m == |t| || t[m].id in viewed
    decreases |t| - i
  {
    if i < |t| && t[i].id !in viewed then UnviewedRun(t, viewed, i + 1) else i
  }

  /** A sequence sorted by `Compare` is its unviewed stories followed by its viewed ones. */
  lemma SortedSplits(t: seq<Story>, viewed: seq<string>)
    requires SortedBy(t, viewed)
    ensures t == Filter(t, InGroup(viewed, false)) + Filter(t, InGroup(viewed, true))
  {
    var u, v := InGroup(viewed, false), InGroup(viewed, true);
    var m := UnviewedRun(t, viewed, 0);
    forall k | m <= k < |t| ensures !u(t[k]) && v(t[k]) {
      if k > m {
        assert Compare(t[m], t[k], viewed) <= 0;
      }
    }
    FilterSplitAt(t, u, v, m);
  }

  /**
   * Any stable sort by `Compare` gives `UnviewedFirst`: a sequence that is
   * sorted and keeps each group of `s` in order is exactly `UnviewedFirst(s)`.
   * So whatever algorithm the engine's stable `Array.prototype.sort` uses,
   * the strip comes out in this order.
   */
  lemma StableSortIsUnviewedFirst(s: seq<Story>, t: seq<Story>, viewed: seq<string>)
    requires SortedBy(t, viewed)
    requires Filter(t, InGroup(viewed, false)) == Filter(s, InGroup(viewed, false))
    requires Filter(t, InGroup(viewed, true)) == Filter(s, InGroup(viewed, true))
    ensures t == UnviewedFirst(s, viewed)
  {
    SortedSplits(t, viewed);
  }

  // --------------------------------------------------------------- viewer

  /** Every story has a thumbnail, an image and a non-empty title. */
  predicate AllShowable(s: seq<Story>) {
    forall k :: 0 <= k < |s| ==> KeepStory(s[k]) && s[k].title != ""
  }

  /** Every parsed story can be shown: it passed the parser's filter and has a title. */
  lemma ParsedStoriesShowable(d: string)
    ensures AllShowable(ParseStories(d))
  {
    ParseStoriesTitled(d);
  }

  const LoadFailedNotice := "Could not load stories."

  /** Ordering the strip keeps every story showable, since it only permutes them. */
  lemma UnviewedFirstShowable(s: seq<Story>, viewed: seq<string>)
    requires AllShowable(s)
    ensures AllShowable(UnviewedFirst(s, viewed))
  {
    var r := UnviewedFirst(s, viewed);
    UnviewedFirstPermutes(s, viewed);
    forall k | 0 <= k < |r| ensures KeepStory(r[k]) && r[k].title != "" {
      assert r[k] in multiset(s);
    }
  }

  class StoryViewer {
    const store: Store

    /** `storiesData`, in strip order. */
    var stories: seq<Story>
    /** `viewedStories`. */
    var viewed: seq<string>
    /** The text shown in the strip instead of stories when loading failed. */
    var notice: Option<string>

    /** The viewer has the class `active`. */
    var active: bool
    var currentIndex: nat
    /** The handle held in `timer` (undefined before the first open). */
    var timer: Option<nat>
    /** The intervals set and not yet cleared. */
    var liveTimers: set<nat>
    /** The handle the next `setInterval` returns. */
    var nextHandle: nat

    /** What the viewer displays: image, title and the learn-more button. */
    var image: string
    var title: string
    var learnMoreHref: string
    var learnMoreShown: bool
    /** The `(link, title)` the learn-more click handler opens; set only for a story with a link. */
    var learnMoreTarget: Option<(string, string)>

    /**
     * The viewer invariant: every story has a thumbnail and an image; the index
     * is in range (or 0 with no story); exactly one interval is live, the one in
     * `timer`, while the viewer is open, and none while it is closed; and the
     * open viewer shows the story at `currentIndex`.
     */
    ghost predicate Valid()
      reads this`stories, this`active, this`currentIndex, this`timer, this`liveTimers, this`nextHandle
      reads this`image, this`title, this`learnMoreHref, this`learnMoreShown, this`learnMoreTarget
    {
      AllShowable(stories)
      && (currentIndex < |stories| || currentIndex == 0)
      && (active ==> currentIndex < |stories| && timer.Some? && liveTimers == {timer.value})
      && (!active ==> liveTimers == {})
      && (forall h :: h in liveTimers ==> h < nextHandle)
      && (active ==> ShowsStory(stories[currentIndex]))
    }

    ghost predicate ShowsStory(s: Story)
      reads this`image, this`title, this`learnMoreHref, this`learnMoreShown, this`learnMoreTarget
      requires KeepStory(s)
    {
      image == s.imageUrl.value && title == s.title
      && learnMoreHref == OrElse(s.link, "#")
      && (learnMoreShown <==> Truthy(s.link))
      && (learnMoreShown ==> learnMoreTarget == Some((s.link.value, s.title)))
    }

    /**
     * Setting up the widget: the viewed list is read from the store (empty
     * when absent); no story is there until the download completes.
     */
    constructor (store: Store)
      ensures Valid() && !active && currentIndex == 0 && liveTimers == {}
      ensures this.store == store && stories == [] && notice == None
      ensures viewed == (if store.viewedStories.Some? then store.viewedStories.value else [])
    {
      this.store := store;
      viewed := if store.viewedStories.Some? then store.viewedStories.value else [];
      stories, notice := [], None;
      active, currentIndex, timer, liveTimers, nextHandle := false, 0, None, {}, 0;
      image, title, learnMoreHref, learnMoreShown, learnMoreTarget := "", "", "#", false, None;
    }

    /**
     * `loadStories` once its download completes: downloaded text (`Some`) is
     * parsed and rendered; a failed download (`None`) leaves no story and
     * shows the failure notice. It runs once, before any story can be opened.
     */
    method LoadCompleted(download: Option<string>)
      requires Valid() && stories == []
      modifies this`stories, this`notice
      ensures Valid()
      ensures download.Some? ==> stories == UnviewedFirst(ParseStories(download.value), viewed) && notice == old(notice)
      ensures download.None? ==> stories == [] && notice == Some(LoadFailedNotice)
    {
      if download.Some? {
        ParsedStoriesShowable(download.value);
        stories := ParseStories(download.value);
        RenderStories();
        assert !active && liveTimers == {};
      } else {
        notice := Some(LoadFailedNotice);
      }
    }

    /** `renderStories`: orders the strip, unviewed stories first, stably. */
    method RenderStories()
      requires AllShowable(stories)
      modifies this`stories
      ensures stories == UnviewedFirst(old(stories), viewed)
      ensures AllShowable(stories)
    {
      UnviewedFirstShowable(stories, viewed);
      stories := UnviewedFirst(stories, viewed);
    }

    /** Puts story `s` on the viewer: its image and title, and the learn-more button when it has a link. */
    method Show(s: Story)
      requires KeepStory(s)
      modifies this`image, this`title, this`learnMoreHref, this`learnMoreShown, this`learnMoreTarget
      ensures ShowsStory(s)
      ensures !Truthy(s.link) ==> learnMoreTarget == old(learnMoreTarget)
    {
      image, title := s.imageUrl.value, s.title;
      learnMoreHref, learnMoreShown := OrElse(s.link, "#"), Truthy(s.link);
      if Truthy(s.link) {
        learnMoreTarget := Some((s.link.value, s.title));
      }
    }

    /** `markViewed`: records `id` once, and writes the list through to the store when it grows. */
    method MarkViewed(id: string)
      modifies this`viewed, store`viewedStories
      ensures viewed == WithViewed(old(viewed), id)
      ensures store.viewedStories == if id in old(viewed) then old(store.viewedStories) else Some(viewed)
    {
      if id !in viewed {
        viewed := viewed + [id];
        store.viewedStories := Some(viewed);
      }
    }

    /** `clearInterval(timer)`. */
    method ClearInterval()
      modifies this`liveTimers
      ensures liveTimers == if timer.Some? then old(liveTimers) - {timer.value} else old(liveTimers)
    {
      if timer.Some? {
        liveTimers := liveTimers - {timer.value};
      }
    }

    /** `timer = setInterval(nextStory, 5000)`: a new interval, with a handle never used before. */
    method SetInterval()
      modifies this`timer, this`liveTimers, this`nextHandle
      ensures timer == Some(old(nextHandle)) && liveTimers == old(liveTimers) + {old(nextHandle)}
      ensures nextHandle == old(nextHandle) + 1
    {
      timer := Some(nextHandle);
      liveTimers := liveTimers + {nextHandle};
      nextHandle := nextHandle + 1;
    }

    /**
     * `openStory(i)`: shows story `i`, marks it viewed, clears the interval
     * held in `timer` and starts a fresh one, so exactly one is live.
     */
    method OpenStory(i: nat)
      requires Valid() && i < |stories|
      modifies this, store`viewedStories
      ensures Valid() && active && currentIndex == i
      ensures stories == old(stories) && notice == old(notice)
      ensures viewed == WithViewed(old(viewed), stories[i].id)
      ensures store.viewedStories == if stories[i].id in old(viewed) then old(store.viewedStories) else Some(viewed)
      ensures timer.Some? && liveTimers == {timer.value} && timer.value !in old(liveTimers)
      ensures !Truthy(stories[i].link) ==> learnMoreTarget == old(learnMoreTarget)
    {
      var s := stories[i];
      currentIndex, active := i, true;
      Show(s);
      MarkViewed(s.id);
      RestartInterval();
    }

    /** `clearInterval(timer); timer = setInterval(nextStory, 5000)`: the held interval is replaced by a fresh one. */
    method RestartInterval()
      requires timer.Some? ==> liveTimers <= {timer.value}
      requires timer.None? ==> liveTimers == {}
      requires forall h :: h in liveTimers ==> h < nextHandle
      modifies this`timer, this`liveTimers, this`nextHandle
      ensures timer == Some(old(nextHandle)) && liveTimers == {old(nextHandle)}
      ensures nextHandle == old(nextHandle) + 1
    {
      ClearInterval();
      SetInterval();
    }

    /** `closeStory`: hides the viewer and clears its interval; nothing else changes. */
    method CloseStory()
      requires Valid()
      modifies this`active, this`liveTimers
      ensures Valid() && !active && liveTimers == {}
    {
      active := false;
      ClearInterval();
    }

    /** `nextStory`: the following story, or closing the viewer after the last one. */
    method NextStory()
      requires Valid()
      modifies this, store`viewedStories
      ensures Valid() && stories == old(stories) && notice == old(notice)
      ensures old(currentIndex) < |stories| - 1 ==>
        active && currentIndex == old(currentIndex) + 1 && viewed == WithViewed(old(viewed), stories[currentIndex].id)
        && store.viewedStories == (if stories[currentIndex].id in old(viewed) then old(store.viewedStories) else Some(viewed))
        && timer.Some? && liveTimers == {timer.value} && timer.value !in old(liveTimers)
        && (!Truthy(stories[currentIndex].link) ==> learnMoreTarget == old(learnMoreTarget))
      ensures old(currentIndex) >= |stories| - 1 ==>
        !active && liveTimers == {} && unchanged(store)
        && unchanged(this`viewed, this`currentIndex, this`timer, this`nextHandle)
        && unchanged(this`image, this`title, this`learnMoreHref, this`learnMoreShown, this`learnMoreTarget)
    {
      if currentIndex < |stories| - 1 {
        OpenStory(currentIndex + 1);
      } else {
        CloseStory();
      }
    }

    /** `prevStory`: the preceding story; at the first one nothing happens. */
    method PrevStory()
      requires Valid()
      modifies this, store`viewedStories
      ensures Valid() && stories == old(stories) && notice == old(notice)
      ensures old(currentIndex) > 0 ==>
        active && currentIndex == old(currentIndex) - 1 && viewed == WithViewed(old(viewed), stories[currentIndex].id)
        && store.viewedStories == (if stories[currentIndex].id in old(viewed) then old(store.viewedStories) else Some(viewed))
        && timer.Some? && liveTimers == {timer.value} && timer.value !in old(liveTimers)
        && (!Truthy(stories[currentIndex].link) ==> learnMoreTarget == old(learnMoreTarget))
      ensures old(currentIndex) == 0 ==> unchanged(this) && unchanged(store)
    {
      if currentIndex > 0 {
        OpenStory(currentIndex - 1);
      }
    }

    /** The live interval fires: the same as `nextStory`. */
    method TimerFires()
      requires Valid() && timer.Some? && timer.value in liveTimers
      modifies this, store`viewedStories
      ensures Valid() && stories == old(stories) && notice == old(notice)
      ensures old(currentIndex) < |stories| - 1 ==>
        active && currentIndex == old(currentIndex) + 1 && viewed == WithViewed(old(viewed), stories[currentIndex].id)
        && store.viewedStories == (if stories[currentIndex].id in old(viewed) then old(store.viewedStories) else Some(viewed))
        && timer.Some? && liveTimers == {timer.value} && timer.value !in old(liveTimers)
        && (!Truthy(stories[currentIndex].link) ==> learnMoreTarget == old(learnMoreTarget))
      ensures old(currentIndex) >= |stories| - 1 ==>
        !active && liveTimers == {} && unchanged(store)
        && unchanged(this`viewed, this`currentIndex, this`timer, this`nextHandle)
        && unchanged(this`image, this`title, this`learnMoreHref, this`learnMoreShown, this`learnMoreTarget)
    {
      NextStory();
    }

    /** The document's key handler: ignored while the viewer is closed; arrows navigate, Escape closes. */
    method KeyDown(key: string)
      requires Valid()
      modifies this, store`viewedStories
      ensures Valid() && stories == old(stories) && notice == old(notice)
      ensures !old(active) ==> unchanged(this) && unchanged(store)
      ensures old(active) && key == "ArrowRight" && old(currentIndex) < |stories| - 1 ==>
        active && currentIndex == old(currentIndex) + 1 && viewed == WithViewed(old(viewed), stories[currentIndex].id)
        && store.viewedStories == (if stories[currentIndex].id in old(viewed) then old(store.viewedStories) else Some(viewed))
        && timer.Some? && liveTimers == {timer.value} && timer.value !in old(liveTimers)
        && (!Truthy(stories[currentIndex].link) ==> learnMoreTarget == old(learnMoreTarget))
      ensures old(active) && key == "ArrowRight" && old(currentIndex) >= |stories| - 1 ==>
        !active && liveTimers == {} && unchanged(store)
        && unchanged(this`viewed, this`currentIndex, this`timer, this`nextHandle)
        && unchanged(this`image, this`title, this`learnMoreHref, this`learnMoreShown, this`learnMoreTarget)
      ensures old(active) && key == "ArrowLeft" && old(currentIndex) > 0 ==>
        active && currentIndex == old(currentIndex) - 1 && viewed == WithViewed(old(viewed), stories[currentIndex].id)
        && store.viewedStories == (if stories[currentIndex].id in old(viewed) then old(store.viewedStories) else Some(viewed))
        && timer.Some? && liveTimers == {timer.value} && timer.value !in old(liveTimers)
        && (!Truthy(stories[currentIndex].link) ==> learnMoreTarget == old(learnMoreTarget))
      ensures old(active) && key == "ArrowLeft" && old(currentIndex) == 0 ==> unchanged(this) && unchanged(store)
      ensures old(active) && key == "Escape" ==>
        !active && liveTimers == {} && unchanged(store)
        && unchanged(this`viewed, this`currentIndex, this`timer, this`nextHandle)
        && unchanged(this`image, this`title, this`learnMoreHref, this`learnMoreShown, this`learnMoreTarget)
      ensures old(active) && key !in {"ArrowRight", "ArrowLeft", "Escape"} ==> unchanged(this) && unchanged(store)
    {
      if !active {
        return;
      }
      if key == "ArrowRight" {
        NextStory();
      }
      if key == "ArrowLeft" {
        PrevStory();
      }
      if key == "Escape" {
        CloseStory();
      }
    }

    /** The learn-more button (shown only for a story with a link) opens that link in the iframe viewer. */
    method ClickLearnMore(viewer: Iframe)
      requires Valid() && active && learnMoreShown
      modifies viewer
      ensures viewer.open && viewer.scrollLocked
      ensures viewer.src == stories[currentIndex].link.value && viewer.title == stories[currentIndex].title
    {
      var target := learnMoreTarget.value;
      viewer.OpenInIframe(target.0, Some(target.1));
    }
  }
}

=== FILE: text.dfy ===
/**
 * The JavaScript string built-ins the parsers use, over `string` (= seq<char>):
 * `String.prototype.split` with a one-character separator, `trim`,
 * `toLowerCase`, `includes`, and the decimal rendering of a number inside a
 * template literal.
 */
module Text {

  /**
   * The characters `trim` removes: WhiteSpace and LineTerminator of ECMA-262
   * (section 12.2 and 12.3): TAB, VT, FF, SP, NBSP, ZWNBSP, the Zs
   * category, LF, CR, LS and PS.
   */
  predicate IsWhite(c: char) {
    c == '\t' || c == '\U{000B}' || c == '\U{000C}' || c == ' ' || c == '\U{00A0}' || c == '\U{FEFF}'
    || c == '\U{1680}' || ('\U{2000}' <= c <= '\U{200A}') || c == '\U{202F}' || c == '\U{205F}'
    || c == '\U{3000}' || c == '\n' || c == '\r' || c == '\U{2028}' || c == '\U{2029}'
  }

  /** The end of the run of white space that starts at `i`: the first non-white index at or after `i`. */
  function SkipWhite(s: string, i: nat): (j: nat)
    requires i <= |s|
    ensures i <= j <= |s|
    ensures forall k :: i <= k < j ==> IsWhite(s[k])
    ensures j == |s| || !IsWhite(s[j])
    decreases |s| - i
  {
    if i < |s| && IsWhite(s[i]) then SkipWhite(s, i + 1) else i
  }

  /** The start of the run of white space that ends at `j`, looking no further back than `lo`. */
  function SkipWhiteBack(s: string, lo: nat, j: nat): (i: nat)
    requires lo <= j <= |s|
    ensures lo <= i <= j
    ensures forall k :: i <= k < j ==> IsWhite(s[k])
    ensures i == lo || !IsWhite(s[i - 1])
    decreases j - lo
  {
    if lo < j && IsWhite(s[j - 1]) then SkipWhiteBack(s, lo, j - 1) else j
  }

  /** `r` is `s` with the `i` characters before it and every character after it white space. */
  predicate TrimmedAt(s: string, r: string, i: nat) {
    i + |r| <= |s| && r == s[i..i + |r|]
    && (forall k :: 0 <= k < i ==> IsWhite(s[k]))
    && (forall k :: i + |r| <= k < |s| ==> IsWhite(s[k]))
  }

  /**
   * `s.trim()`: `s` without its leading and trailing white space; what is
   * left neither starts nor ends with white space.
   */
  function Trim(s: string): (r: string)
    ensures exists i: nat :: TrimmedAt(s, r, i)
    ensures r == [] || (!IsWhite(r[0]) && !IsWhite(r[|r| - 1]))
  {
    var a := SkipWhite(s, 0);
    var b := SkipWhiteBack(s, a, |s|);
    assert TrimmedAt(s, s[a..b], a);
    s[a..b]
  }

  /** A trimmed field is empty exactly when every character of the raw field is white space. */
  lemma TrimEmptyIff(s: string)
    ensures Trim(s) == "" <==> forall k :: 0 <= k < |s| ==> IsWhite(s[k])
  {
    if Trim(s) == "" {
      var i: nat :| TrimmedAt(s, "", i);
    }
  }

  /** A string with no white space at either end is its own trim; in particular `trim` is idempotent. */
  lemma TrimKeeps(s: string)
    requires s == [] || (!IsWhite(s[0]) && !IsWhite(s[|s| - 1]))
    ensures Trim(s) == s
  {
    assert SkipWhite(s, 0) == 0;
    assert s[0..|s|] == s;
  }

  lemma TrimIdempotent(s: string)
    ensures Trim(Trim(s)) == Trim(s)
  {
    TrimKeeps(Trim(s));
  }

  /**
   * `s.split(sep)` for a one-character separator: the maximal separator-free
   * pieces between separators, always at least one (`"".split(",")` is `[""]`).
   */
  function Split(s: string, sep: char): (r: seq<string>)
    ensures |r| >= 1
    ensures forall k :: 0 <= k < |r| ==> sep !in r[k]
  {
    if s == [] then [""]
    else
      var rest := Split(s[1..], sep);
      if s[0] == sep then [""] + rest
      else [[s[0]] + rest[0]] + rest[1..]
  }

  /** `parts.join(sep)`, the inverse of `Split`. */
  function Join(parts: seq<string>, sep: char): string {
    if parts == [] then ""
    else if |parts| == 1 then parts[0]
    else parts[0] + [sep] + Join(parts[1..], sep)
  }

  /** Splitting loses nothing: joining the pieces back with the separator gives the input. */
  lemma {:induction false} JoinSplit(s: string, sep: char)
    ensures Join(Split(s, sep), sep) == s
  {
    if s != [] {
      var rest := Split(s[1..], sep);
      JoinSplit(s[1..], sep);
      if s[0] == sep {
        assert Split(s, sep) == [""] + rest;
      } else {
        var r := Split(s, sep);
        assert r == [[s[0]] + rest[0]] + rest[1..];
        if |rest| == 1 {
          assert Join(r, sep) == [s[0]] + rest[0];
        } else {
          assert r[1..] == rest[1..];
          assert Join(r, sep) == [s[0]] + rest[0] + [sep] + Join(rest[1..], sep);
        }
      }
    }
  }

  /** A separator-free string is one piece. */
  lemma {:induction false} SplitNone(s: string, sep: char)
    requires sep !in s
    ensures Split(s, sep) == [s]
  {
    if s != [] {
      SplitNone(s[1..], sep);
      assert [s[0]] + s[1..] == s;
    }
  }

  /** The first separator ends the first piece; the rest is split on its own. */
  lemma {:induction false} SplitAt(a: string, b: string, sep: char)
    requires sep !in a
    ensures Split(a + [sep] + b, sep) == [a] + Split(b, sep)
  {
    if a == [] {
      assert ([sep] + b)[1..] == b;
    } else {
      assert (a + [sep] + b)[1..] == a[1..] + [sep] + b;
      SplitAt(a[1..], b, sep);
      assert [a[0]] + a[1..] == a;
    }
  }

  /** ASCII upper case to lower case; every other character is left as it is. */
  function LowerChar(c: char): (r: char)
    ensures 'A' <= c <= 'Z' ==> 'a' <= r <= 'z' && r as int - c as int == 'a' as int - 'A' as int
    ensures !('A' <= c <= 'Z') ==> r == c
    ensures !('A' <= r <= 'Z')
  {
    if 'A' <= c <= 'Z' then (c as int - 'A' as int + 'a' as int) as char else c
  }

  /** `s.toLowerCase()`, restricted to the ASCII letters. */
  function ToLower(s: string): (r: string)
    ensures |r| == |s|
    ensures forall k :: 0 <= k < |s| ==> r[k] == LowerChar(s[k])
  {
    if s == [] then [] else [LowerChar(s[0])] + ToLower(s[1..])
  }

  /** Lower-casing twice is lower-casing once. */
  lemma ToLowerIdempotent(s: string)
    ensures ToLower(ToLower(s)) == ToLower(s)
  {
  }

  /** `sub` occurs in `s` starting at index `i`. */
  predicate OccursAt(s: string, sub: string, i: nat) {
    i + |sub| <= |s| && s[i..i + |sub|] == sub
  }

  /** `s.includes(sub)`: the empty string is included in every string. */
  function Contains(s: string, sub: string): (r: bool)
    ensures r <==> exists i: nat :: OccursAt(s, sub, i)
    decreases |s|
  {
    if |sub| > |s| then false
    else if s[..|sub|] == sub then
      assert OccursAt(s, sub, 0);
      true
    else
      var rest := Contains(s[1..], sub);
      if rest then
        var i: nat :| OccursAt(s[1..], sub, i);
        assert OccursAt(s, sub, i + 1) by {
          assert s[1..][i..i + |sub|] == s[i + 1..i + 1 + |sub|];
        }
        true
      else
        forall i: nat | OccursAt(s, sub, i) ensures false {
          assert i != 0;
          assert OccursAt(s[1..], sub, i - 1) by {
            assert s[1..][i - 1..i - 1 + |sub|] == s[i..i + |sub|];
          }
        }
        false
  }

  /** The decimal digits of `n`, as a template literal renders a non-negative integer. */
  function Decimal(n: nat): (r: string)
    ensures |r| >= 1
    ensures forall k :: 0 <= k < |r| ==> '0' <= r[k] <= '9'
    ensures n >= 10 ==> |r| >= 2 && r[0] != '0'
    ensures n < 10 ==> |r| == 1
  {
    if n < 10 then [('0' as int + n) as char]
    else Decimal(n / 10) + [('0' as int + n % 10) as char]
  }

  /** Reads a string of decimal digits back as a number. */
  function DecimalValue(s: string): nat {
    if s == [] then 0
    else DecimalValue(s[..|s| - 1]) * 10 + (if '0' <= s[|s| - 1] <= '9' then s[|s| - 1] as int - '0' as int else 0)
  }

  /** Reading the rendered digits gives the number back, so distinct numbers render distinctly. */
  lemma {:induction false} DecimalRoundTrip(n: nat)
    ensures DecimalValue(Decimal(n)) == n
  {
    if n >= 10 {
      var d := Decimal(n);
      assert d[..|d| - 1] == Decimal(n / 10);
      DecimalRoundTrip(n / 10);
    }
  }

  lemma DecimalInjective(m: nat, n: nat)
    ensures Decimal(m) == Decimal(n) ==> m == n
  {
    DecimalRoundTrip(m);
    DecimalRoundTrip(n);
  }
}
